=== FILE: README.md ===
# Card-data validator: a Dafny model

This project models `validate.py`, the validator of a trading-card data
repository. It covers the validation pass, the per-card state machine and the
two error counters, and it proves their properties in Dafny.

The validator reads an expansion index and one card file per expansion. It
checks every expansion and card against JSON Schema documents, and in the
default (untranslated) pass it also checks each card in two ways:

- its `expansion_code` must name the file it sits in;
- its `code` must not be taken yet.

Accepted cards are recorded in a process-wide table of codes. The same work is
then repeated for every translation directory, against the `_trans` schemas
and without the custom checks. Every file is also compared with its canonical
serialisation, and `--fix_formatting` rewrites files that differ. The run
counts formatting errors and validation errors, and it exits with status 0
only when both counts are zero.

How the model is built:

- `json.dfy` (`JsonValues`) defines parsed JSON values and the Python
  behaviours the validator relies on: truthiness, `x[key]` and hashability.
- `environment.dfy` (`Environment`) holds the file roles, the pass (`Default`
  or `Locale(name)`) and the foreign library as function-valued fields of
  `Env`:
  - `json.loads` and `json.dumps`;
  - UTF-8 decoding and `str()`;
  - `jsonschema.validate` as `schemaOk(instance, schema)`;
  - `Draft4Validator.check_schema` as `schemaDocOk(schema)`.

  The model assumes nothing about how any of them compute beyond what the
  value type lets them see (see "## Left out" on numbers). This file also
  defines the `Result` type. An uncaught Python exception, or a `sys.exit`
  with a message, is an `Abort` that ends the run with status 1.
- `state.dfy` (`ValidatorState`) holds the code table, the two counters, the
  files, and a log of every counted problem. The invariant `Consistent` says
  that each counter equals the number of logged problems of its class. Every
  operation preserves it.
- `loader.dfy` (`Loader`) models `format_json`, `load_json_file` and
  `check_json_schema`.
- `cards.dfy` (`Cards`) models `custom_card_check`, `validate_card` and the
  loops of `validate_cards`.
- `expansions.dfy` (`Expansions`) models `validate_expansions` and
  `load_expansions`.
- `pipeline.dfy` (`Pipeline`) models `validate_locales`, `main` and the exit
  status.
- `scenarios.dfy` (`Scenarios`) holds concrete runs: a duplicate in one file
  and one across two card files, a rejected card that reserves nothing, a
  mismatch that wins over a duplicate, and a translated card that overwrites.

The model follows the code where it crashes, too. Each of these aborts the
whole run before the summary line:

- A default-pass card without a `name` raises KeyError. The progress message
  reads `card["name"]` before the schema runs, so this happens before the
  schema can reject the card.
- In a translation pass, a card without a `code` does the same.
- A card whose code is a list or an object aborts once the code is used as
  a dict key: in the default pass when its expansion code matches
  (validate.py:52), in a translation pass when the schema accepts it
  (validate.py:152). A mismatch or a schema rejection is counted first.
- A card file that is missing cannot be opened.
- A card file that is truthy but not a list makes the card loop fail.

Three behaviours of `validate.py` matter for the model:

- An expansion listed in the index without a card file does not cause a
  separate up-front fatal check. `load_cards_index` is never called. The run
  instead aborts when `open` fails inside the card loop, after earlier
  expansions' cards have been validated.
- `load_expansions` does not return the index with its failed entries. One
  failing entry makes it return `None`, and then no card of that pass is
  validated.
- A card whose expansion code does not match is reported as a schema error
  when the schema rejects it too. The schema check runs first, and the
  mismatch is only detected on cards the schema accepts.

## Model

| member | source | states |
|---|---|---|
| `Loader.FormatJson` | validate.py:59-62 | The canonical text is the library serialisation with one newline appended, so it is never empty and always ends in `"\n"`. |
| `Loader.LoadJsonFile` | validate.py:64-93 | A file that cannot be opened aborts the run. Undecodable or unparsable text adds exactly one validation error and yields `None`. A parsed file adds one formatting error exactly when its canonical form differs from its text, and it still returns the parsed value. The file is rewritten with the canonical text only when `--fix_formatting` is set and the write can be opened. The length guard never blocks the rewrite. Nothing else changes. |
| `Loader.FixedFileLoadsClean` | validate.py:79-93 | After a file has been fixed, loading it again adds no error and changes nothing, provided the JSON library reads canonical text back as the same value. |
| `Loader.CanonicalFileNotCounted` | validate.py:79-83 | A file whose text already is the canonical form of its value loads with no error and no change to the state. |
| `Loader.CheckJsonSchema` | validate.py:34-43 | The verdict is true exactly when the schema document is valid Draft 4. An invalid document adds exactly one validation error and is logged as such. |
| `Loader.SchemaFailures` | validate.py:197-208 | The number of failing instances is zero exactly when every instance passes the schema. |
| `ValidatorState.CountersZeroIffNoReports` | validate.py:248-252 | Under the counter invariant, both counters are zero exactly when no problem of either class has been reported. |
| `Cards.CustomCardCheck` | validate.py:45-53 | The locale pass checks nothing. The default pass accepts exactly the cards whose expansion code matches the file and whose hashable code is not yet taken. A mismatch is reported before any duplicate check. A duplicate names the registered card's name. A card with every field present and a hashable code never aborts, provided every registered card has a name. |
| `Cards.ValidateCard` | validate.py:145-158 | Each card adds exactly one validation error if it is rejected and none if it passes. A rejected card leaves the code table unchanged. A card that passes is stored under its code, overwriting in the locale pass. A schema failure is reported as such. In the default pass a mismatch wins over a duplicate. A duplicate keeps the first entry and names its owner. The table stays keyed by each card's own code. |
| `Cards.ValidateCardList` | validate.py:180-181 | A file of n cards adds between 0 and n validation errors. In the default pass no existing entry is replaced, and errors plus table size grow by exactly n, so every card is accounted for once. In a locale pass the errors added equal the schema failures. Every entry is an old one or one of the cards. |
| `Cards.ValidateCardFile` | validate.py:176-181 | A falsy card file (a failed load or an empty list) is skipped without change. A truthy non-list aborts. A list of n cards adds between 0 and n validation errors. In the default pass errors plus table size grow by exactly n, and in a locale pass the errors added equal the schema failures. Only card-loop problems are reported. |
| `Cards.ValidateExpansionCards` | validate.py:171-181 | The loop over expansions never lowers a counter and keeps the invariants. In the default pass it never replaces a registered card. It only appends reports of this pass's card files (not JSON, misformatted) and of rejected cards. A loop that completes found the card file of every listed expansion with a code, so a missing card file aborts the run. |
| `Cards.ValidateCards` | validate.py:160-169 | A falsy card schema validates no card. An invalid card schema document adds exactly one validation error and leaves the code table and all cards untouched. |
| `Expansions.ValidateExpansionEntries` | validate.py:197-210 | The loop aborts exactly when some entry is not an object. Otherwise the verdict is true exactly when every entry passes, and the errors added equal the number of failing entries. |
| `Expansions.ExpansionReported` | validate.py:203-208 | Every entry that fails the schema appears in the log of reported problems. |
| `Expansions.ValidateExpansions` | validate.py:183-210 | If the data is not a list, or the schema is falsy, the result is false with no error beyond loading the schema file. Otherwise the result is true exactly when the data is a list, the schema is truthy and valid Draft 4, and every entry passes. When the schema is usable, one error is added per failing entry. |
| `Expansions.LoadExpansions` | validate.py:95-104 | The index is returned exactly when it parses as a list, the expansion schema is truthy and valid Draft 4, and every entry passes that schema; otherwise the result is `None`. What is returned is the parsed index, a list of objects. The code table is unchanged. |
| `Expansions.OneBadEntryRejectsIndex` | validate.py:95-104 | In any pass, one index entry failing the expansion schema makes `load_expansions` return `None` and reports that entry. |
| `Pipeline.ValidateCardsIfAny` | validate.py:219-224 | A translation's cards are validated only when its expansion index came back as a non-empty list. |
| `Pipeline.ValidateLocaleList` | validate.py:216-224 | The loop over locales keeps the counter invariant and the keyed code table, and it never lowers the validation count. |
| `Pipeline.ValidateLocales` | validate.py:212-224 | A missing translations directory changes nothing. An unusable one aborts the run. |
| `Pipeline.Run` | validate.py:231-246 | A completed run ends with counters that equal its logged problems and with a code table keyed by each card's code. Cards are registered only when the default expansion index was accepted. |
| `Pipeline.ExitStatus` | validate.py:248-252 | The exit status is 0 or 1, and it is 1 after any abort. For a completed run whose counters match its log, it is 0 exactly when no problem of either class was reported. |
| `Pipeline.ExitZeroIffNothingReported` | validate.py:248-252 | The run exits with 0 exactly when it completes without a single reported problem. |
| `Pipeline.NoCardsWithoutExpansions` | validate.py:240-246 | A rejected or empty default expansion index ends the run right after loading it. No card and no translation is looked at, and the code table stays empty. |
| `Pipeline.OneBadExpansionStopsCards` | validate.py:101-102 | One expansion entry failing the schema leaves the whole run without validated cards and reports that entry. |
| `Scenarios.DuplicateInOneFile` | validate.py:52-53 | Two cards sharing a code in one file produce exactly one error, on the second card. The error names the first card, which stays registered. |
| `Scenarios.CanonicalCardFileStep` | validate.py:171-181 | For an expansion whose card file is canonical and holds one card, the loop over expansions loads that file without a report, validates its card, and continues with the rest from the resulting state. |
| `Scenarios.DuplicateAcrossFiles` | validate.py:171-181 | Two cards with the same code in the card files of two expansions produce exactly one error, a duplicate on the second card naming the first. The code table carries over between files, and the first card stays registered. |
| `Scenarios.RejectedCardReservesNothing` | validate.py:150-152 | A card the schema rejects does not reserve its code, so a later valid card with that code is accepted. |
| `Scenarios.MismatchReportedBeforeDuplicate` | validate.py:50-53 | A card in the wrong file that also repeats a code is reported for the mismatch. |
| `Scenarios.LocaleCardOverwrites` | validate.py:47-48 | A translated card runs no custom check and overwrites the registered card with the same code. |

## Left out

- File reading is a map from file roles to contents, and writing is an update of that map. The model does not cover paths, `os.path.join`, `os.access`, `os.path.isdir`, or the `sys.exit` calls in `check_dir_access`, made while parsing the command line, and in `check_file_access`, which only the unused `load_cards_index` calls.
- Command-line parsing and the defaults of `argparse` are out of scope. `--fix_formatting` is a field of `Env`, and verbosity and printed message texts are not modelled. Reports carry the data of each message, not its text.
- The internals of `jsonschema`, `json.loads`, `json.dumps`, UTF-8 decoding and `str()` are foreign library code. They are uninterpreted fields of `Env`. Other exceptions these libraries may raise are not modelled, for example a `SchemaError` from `jsonschema.validate` for a schema of another draft.
- `custom_cards_check` and `load_cards_index` are dead code. They refer to undefined names and are never called.
- Discovering locale directories with `os.listdir` depends on the filesystem. The list of locale names is an input (`Translations`).
- Python's cross-type equality of `True` with `1` is not modelled. JSON numbers are reals, so booleans and numbers are distinct values. `NaN`, `Infinity`, `-Infinity` and `-0.0` are not representable.
- The distinction between Python's `int` and `float` is lost: `1` and `1.0` are the same `JNumber`. So `json.dumps` and `str()` (the `env.dumps` and `env.render` fields) must give them the same text, while Python gives `"1"` and `"1.0"`. For a file holding an integral float, the model's formatting verdict and the card-file name derived from such a code can differ from the program's.
- A formatter write either succeeds entirely or, when opening the file raises `IOError`, leaves the file unchanged. Partial writes are not modelled. Neither is the `UnicodeEncodeError` that text with lone surrogates would raise while encoding.
- The formatter's idempotence and the parse/format round trip are properties of `json.dumps` and `json.loads`, which are uninterpreted here. `Loader.FixedFileLoadsClean` and `Loader.CanonicalFileNotCounted` take the round trip as a hypothesis instead of proving it.

=== FILE: cards.dfy ===
/**
  Card validation: `custom_card_check`, `validate_card`, and the loops of
  `validate_cards` over the expansions and over the cards of one expansion
  file. The table of accepted codes (`unique_card_codes`) is threaded through
  the state.
 */
module Cards {
  import opened JsonValues
  import opened Environment
  import opened ValidatorState
  import opened Loader

  /** A card passes every check of its pass: the schema, and in the default pass
      the expansion-code match and the duplicate check. This is the condition
      under which the card is recorded in the code table. */
  predicate Passes(env: Env, registry: map<Json, Json>, card: Json, schema: Json, expansionCode: Json, scope: Scope)
  {
    && env.schemaOk(card, schema)
    && (scope.Locale? ==>
          Get(card, "code").Some?)
    && (scope.Default? ==>
          && Get(card, "expansion_code") == Some(expansionCode)
          && Get(card, "code").Some?
          && Get(card, "code").value !in registry)
  }

  /** Every entry of the code table is a card stored under its own code. */
  predicate Keyed(registry: map<Json, Json>)
  {
    forall k :: k in registry ==> Get(registry[k], "code") == Some(k)
  }

  /** Every entry of the code table has a name (the duplicate message reads it). */
  predicate Named(registry: map<Json, Json>)
  {
    forall k :: k in registry ==> Get(registry[k], "name").Some?
  }

  /** A card object carrying every field the checks read, with a code that can
      be a dict key. */
  predicate Shaped(card: Json)
  {
    && Get(card, "code").Some? && Hashable(Get(card, "code").value)
    && Get(card, "name").Some?
    && Get(card, "expansion_code").Some?
  }

  /** A problem the card loop of a pass can report: a card file of that pass
      that is not JSON or not canonical, or a rejected card. */
  predicate CardLoopReport(p: Report, scope: Scope)
  {
    || p.InvalidCard?
    || ((p.NotJson? || p.Misformatted?) && p.path.CardFile? && p.path.scope == scope)
  }

  /** `after` extends the log `before` with card-loop reports of `scope` only. */
  predicate OnlyCardLoopReports(before: seq<Report>, after: seq<Report>, scope: Scope)
  {
    && before <= after
    && forall i :: |before| <= i < |after| ==> CardLoopReport(after[i], scope)
  }

  lemma CardLoopReportsCompose(a: seq<Report>, b: seq<Report>, c: seq<Report>, scope: Scope)
    requires OnlyCardLoopReports(a, b, scope) && OnlyCardLoopReports(b, c, scope)
    ensures OnlyCardLoopReports(a, c, scope)
  {
    forall i | |a| <= i < |c|
      ensures CardLoopReport(c[i], scope)
    {
      if i < |b| {
        assert c[i] == b[i];
      }
    }
  }

  /** `custom_card_check`, run after the schema accepted the card. `Ok(None)`:
      no error; `Ok(Some(why))`: it raises ValidationError; `Abort`: a field it
      reads is missing. The locale pass checks nothing. The default pass checks
      the expansion code first, then whether the code is already taken. */
  function CustomCardCheck(registry: map<Json, Json>, card: Json, expansionCode: Json, scope: Scope): (r: Result<Option<Rejection>>)
    ensures scope.Locale? ==> r == Ok(None)
    ensures scope.Default? && r == Ok(None) ==>
              && Get(card, "expansion_code") == Some(expansionCode)
              && Get(card, "code").Some? && Get(card, "code").value !in registry
              && Hashable(Get(card, "code").value)
    ensures scope.Default? && Get(card, "expansion_code").Some? && Get(card, "expansion_code").value != expansionCode
            && Get(card, "code").Some? ==>
              r == Ok(Some(ExpansionMismatch(Get(card, "expansion_code").value, Get(card, "code").value, expansionCode)))
    ensures scope.Default? && Get(card, "expansion_code") == Some(expansionCode)
            && Get(card, "code").Some? && Get(card, "code").value in registry && Hashable(Get(card, "code").value)
            && Get(card, "name").Some? && Get(registry[Get(card, "code").value], "name").Some? ==>
              var code := Get(card, "code").value;
              r == Ok(Some(DuplicateCode(code, Get(card, "name").value, Get(registry[code], "name").value)))
    // a matching card whose hashable code is not taken yet is accepted
    ensures scope.Default? && Get(card, "expansion_code") == Some(expansionCode)
            && Get(card, "code").Some? && Hashable(Get(card, "code").value)
            && Get(card, "code").value !in registry ==>
              r == Ok(None)
    ensures scope.Default? && Shaped(card) && Named(registry) ==> r.Ok?
  {
    if scope.Locale? then Ok(None)
    else
      var cardExpansion :- Index(card, "expansion_code");
      if cardExpansion != expansionCode then
        var code :- Index(card, "code");
        Ok(Some(ExpansionMismatch(cardExpansion, code, expansionCode)))
      else
        var code :- Index(card, "code");
        if !Hashable(code) then Abort(Unhashable(code))
        else if code in registry then
          var name :- Index(card, "name");
          var ownerName :- Index(registry[code], "name");
          Ok(Some(DuplicateCode(code, name, ownerName)))
        else Ok(None)
  }

  /** `validate_card`. The progress message reads the card's code (locale pass)
      or name (default pass) before anything else. A card that fails the schema
      or the custom check counts one validation error and leaves the code table
      alone; a card that passes both is stored under its code. */
  function ValidateCard(env: Env, st: State, card: Json, schema: Json, expansionCode: Json, scope: Scope): (r: Result<State>)
    ensures r.Ok? ==> r.value.formattingErrors == st.formattingErrors && r.value.files == st.files
    ensures r.Ok? && Consistent(st) ==> Consistent(r.value)
    // at most one error per card, and exactly one when it is rejected
    ensures r.Ok? ==> r.value.validationErrors == st.validationErrors + (if Passes(env, st.registry, card, schema, expansionCode, scope) then 0 else 1)
    // the code table changes only when the card passes
    ensures r.Ok? && !Passes(env, st.registry, card, schema, expansionCode, scope) ==> r.value.registry == st.registry
    ensures r.Ok? && Passes(env, st.registry, card, schema, expansionCode, scope) ==>
              r.value == st.(registry := st.registry[Get(card, "code").value := card])
    ensures r.Ok? && !env.schemaOk(card, schema) ==>
              r.value == CountValidationError(st, InvalidCard(expansionCode, card, SchemaViolation))
    // the expansion check comes before the duplicate check
    ensures r.Ok? && scope.Default? && env.schemaOk(card, schema)
            && Get(card, "expansion_code").Some? && Get(card, "expansion_code").value != expansionCode
            && Get(card, "code").Some? ==>
              r.value == CountValidationError(st, InvalidCard(expansionCode, card,
                           ExpansionMismatch(Get(card, "expansion_code").value, Get(card, "code").value, expansionCode)))
    // first occurrence wins; the message names the registered card
    ensures r.Ok? && scope.Default? && env.schemaOk(card, schema) && Get(card, "expansion_code") == Some(expansionCode)
            && Get(card, "code").Some? && Get(card, "code").value in st.registry && Hashable(Get(card, "code").value)
            && Get(card, "name").Some? && Get(st.registry[Get(card, "code").value], "name").Some? ==>
              var code := Get(card, "code").value;
              r.value == CountValidationError(st, InvalidCard(expansionCode, card,
                           DuplicateCode(code, Get(card, "name").value, Get(st.registry[code], "name").value)))
    ensures r.Ok? && Keyed(st.registry) ==> Keyed(r.value.registry)
    ensures r.Ok? && scope.Default? && Named(st.registry) ==> Named(r.value.registry)
    ensures scope.Default? && Shaped(card) && Named(st.registry) ==> r.Ok?
    ensures scope.Locale? && Get(card, "code").Some? && Hashable(Get(card, "code").value) ==> r.Ok?
    ensures r.Ok? ==> OnlyCardLoopReports(st.reports, r.value.reports, scope)
  {
    var shown :- Index(card, if scope.Locale? then "code" else "name");
    if !env.schemaOk(card, schema) then
      Ok(CountValidationError(st, InvalidCard(expansionCode, card, SchemaViolation)))
    else
      var check :- CustomCardCheck(st.registry, card, expansionCode, scope);
      match check
      case Some(why) => Ok(CountValidationError(st, InvalidCard(expansionCode, card, why)))
      case None =>
        // both passes have already read the code by now
        var code := Get(card, "code").value;
        if !Hashable(code) then Abort(Unhashable(code))
        else Ok(st.(registry := st.registry[code := card]))
  }

  /** The loop `for card in cards_data: validate_card(...)` over one file. */
  function ValidateCardList(env: Env, st: State, cards: seq<Json>, schema: Json, expansionCode: Json, scope: Scope): (r: Result<State>)
    decreases |cards|
    ensures r.Ok? ==> r.value.formattingErrors == st.formattingErrors && r.value.files == st.files
    ensures r.Ok? && Consistent(st) ==> Consistent(r.value)
    ensures r.Ok? ==> st.validationErrors <= r.value.validationErrors <= st.validationErrors + |cards|
    // default pass: an entry, once recorded, is never replaced
    ensures r.Ok? && scope.Default? ==> Extends(st.registry, r.value.registry)
    // default pass: every card is either a new entry of the table or one error
    ensures r.Ok? && scope.Default? ==>
              r.value.validationErrors + |r.value.registry| == st.validationErrors + |st.registry| + |cards|
    // locale pass: only the schema rejects cards
    ensures r.Ok? && scope.Locale? ==>
              r.value.validationErrors == st.validationErrors + SchemaFailures(env, cards, schema)
    // every entry is an earlier one or one of these cards
    ensures r.Ok? ==> forall k :: k in r.value.registry ==>
              (k in st.registry && r.value.registry[k] == st.registry[k]) || r.value.registry[k] in cards
    ensures r.Ok? && Keyed(st.registry) ==> Keyed(r.value.registry)
    ensures r.Ok? && scope.Default? && Named(st.registry) ==> Named(r.value.registry)
    ensures r.Ok? ==> OnlyCardLoopReports(st.reports, r.value.reports, scope)
  {
    if |cards| == 0 then Ok(st)
    else
      var next :- ValidateCard(env, st, cards[0], schema, expansionCode, scope);
      var rest := ValidateCardList(env, next, cards[1..], schema, expansionCode, scope);
      if rest.Ok? then
        CardLoopReportsCompose(st.reports, next.reports, rest.value.reports, scope);
        rest
      else rest
  }

  /** The body of the loop over expansions in `validate_cards` for the card file
      once it is loaded: a falsy value (`None`, an empty list) is skipped, a
      list is validated card by card, anything else makes the loop crash on its
      first card. */
  function ValidateCardFile(env: Env, loaded: Loaded, schema: Json, expansionCode: Json, scope: Scope, path: Path): (r: Result<State>)
    ensures r.Ok? ==> r.value.formattingErrors == loaded.st.formattingErrors && r.value.files == loaded.st.files
    ensures r.Ok? && Consistent(loaded.st) ==> Consistent(r.value)
    ensures !PyTruthy(loaded.value) ==> r == Ok(loaded.st)
    ensures PyTruthy(loaded.value) && !loaded.value.value.JArray? ==> r == Abort(CardsNotAList(path))
    ensures r.Ok? && scope.Default? ==> Extends(loaded.st.registry, r.value.registry)
    ensures r.Ok? && Keyed(loaded.st.registry) ==> Keyed(r.value.registry)
    ensures r.Ok? && scope.Default? && Named(loaded.st.registry) ==> Named(r.value.registry)
    ensures r.Ok? ==> OnlyCardLoopReports(loaded.st.reports, r.value.reports, scope)
    // a list file: every card of it is validated
    ensures r.Ok? && loaded.value.Some? && loaded.value.value.JArray? ==>
              var cards := loaded.value.value.elems;
              && loaded.st.validationErrors <= r.value.validationErrors <= loaded.st.validationErrors + |cards|
              && (scope.Default? ==>
                    r.value.validationErrors + |r.value.registry| == loaded.st.validationErrors + |loaded.st.registry| + |cards|)
              && (scope.Locale? ==>
                    r.value.validationErrors == loaded.st.validationErrors + SchemaFailures(env, cards, schema))
  {
    if !PyTruthy(loaded.value) then Ok(loaded.st)
    else
      match loaded.value.value
      case JArray(cards) => ValidateCardList(env, loaded.st, cards, schema, expansionCode, scope)
      case _ => Abort(CardsNotAList(path))
  }

  /** The loop over expansions in `validate_cards`: the progress message reads
      the expansion's code (locale pass) or name (default pass), then the card
      file `<code>.json` of the pass is loaded and its cards validated. */
  function ValidateExpansionCards(env: Env, st: State, expansions: seq<Json>, schema: Json, scope: Scope): (r: Result<State>)
    decreases |expansions|
    ensures r.Ok? ==> r.value.formattingErrors >= st.formattingErrors
    ensures r.Ok? ==> r.value.validationErrors >= st.validationErrors
    ensures r.Ok? && Consistent(st) ==> Consistent(r.value)
    ensures r.Ok? && scope.Default? ==> Extends(st.registry, r.value.registry)
    ensures r.Ok? && Keyed(st.registry) ==> Keyed(r.value.registry)
    ensures r.Ok? && scope.Default? && Named(st.registry) ==> Named(r.value.registry)
    // the loop reports only problems with this pass's card files and cards
    ensures r.Ok? ==> OnlyCardLoopReports(st.reports, r.value.reports, scope)
    ensures r.Ok? ==> r.value.files.Keys == st.files.Keys
    // `open` raises for a missing card file: a completed loop found the card
    // file of every listed expansion that has a code
    ensures r.Ok? ==>
              forall i :: 0 <= i < |expansions| && Get(expansions[i], "code").Some? ==>
                CardFile(scope, env.render(Get(expansions[i], "code").value)) in st.files
  {
    if |expansions| == 0 then Ok(st)
    else
      var e := expansions[0];
      var shown :- Index(e, if scope.Locale? then "code" else "name");
      var code :- Index(e, "code");
      var path := CardFile(scope, env.render(code));
      var loaded :- LoadJsonFile(env, st, path);
      var next :- ValidateCardFile(env, loaded, schema, code, scope, path);
      var rest := ValidateExpansionCards(env, next, expansions[1..], schema, scope);
      if rest.Ok? then
        assert OnlyCardLoopReports(st.reports, loaded.st.reports, scope);
        CardLoopReportsCompose(st.reports, loaded.st.reports, next.reports, scope);
        CardLoopReportsCompose(st.reports, next.reports, rest.value.reports, scope);
        rest
      else rest
  }

  /** `validate_cards`: load the card schema of the pass; when it is falsy or not
      a valid schema document no card is looked at. */
  function ValidateCards(env: Env, st: State, expansions: seq<Json>, scope: Scope): (r: Result<State>)
    ensures r.Ok? && Consistent(st) ==> Consistent(r.value)
    ensures r.Ok? ==> r.value.formattingErrors >= st.formattingErrors
    ensures r.Ok? ==> r.value.validationErrors >= st.validationErrors
    ensures r.Ok? && scope.Default? ==> Extends(st.registry, r.value.registry)
    ensures r.Ok? && Keyed(st.registry) ==> Keyed(r.value.registry)
    ensures r.Ok? && scope.Default? && Named(st.registry) ==> Named(r.value.registry)
    ensures r.Ok? ==> SchemaPath(CardSchema, scope) in st.files
    // a missing or invalid card schema: no card is looked at
    ensures r.Ok? ==>
              var path := SchemaPath(CardSchema, scope);
              var loaded := LoadJsonFile(env, st, path).value;
              && (!PyTruthy(loaded.value) ==> r.value == loaded.st)
              && (PyTruthy(loaded.value) && !env.schemaDocOk(loaded.value.value) ==>
                    r.value == CountValidationError(loaded.st, InvalidSchemaDocument(path)))
  {
    var path := SchemaPath(CardSchema, scope);
    var loaded :- LoadJsonFile(env, st, path);
    if !PyTruthy(loaded.value) then Ok(loaded.st)
    else
      var checked := CheckJsonSchema(env, loaded.st, loaded.value.value, path);
      if !checked.ok then Ok(checked.st)
      else ValidateExpansionCards(env, checked.st, expansions, loaded.value.value, scope)
  }
}

=== FILE: environment.dfy ===
/**
  What the validator runs against: which pass it is in (the default data or one
  translation), which files it reads, the JSON and JSON-Schema libraries it
  calls, and the ways a run can end early (an uncaught Python exception or a
  `sys.exit` with a message).
 */
module Environment {
  import opened JsonValues

  type byte = bv8

  /** A locale is a sub-directory name of the translations directory, so it is
      never empty and `locale and ...` always takes the locale branch. */
  type LocaleName = s: string | s != "" witness "en"

  /** The default pass (`locale=None`) or the pass over one translation. */
  datatype Scope = Default | Locale(name: LocaleName)

  datatype SchemaKind = CardSchema | ExpansionSchema

  /** The files the validator opens, identified by their role.
      `SchemaFile(k, true)` is the `_trans` flavour shared by every locale;
      `CardFile(s, stem)` is `<stem>.json` in the scope's cards directory. */
  datatype Path =
    | ExpansionIndex(scope: Scope)
    | SchemaFile(kind: SchemaKind, translated: bool)
    | CardFile(scope: Scope, stem: string)

  /** The schema file a pass uses for one kind of entity. */
  function SchemaPath(kind: SchemaKind, scope: Scope): Path
  {
    SchemaFile(kind, scope.Locale?)
  }

  /** A file as found on disk, or as last rewritten by the formatter. */
  datatype FileContent = Original(raw: seq<byte>) | Rewritten(text: string)

  /** The library calls and settings the validator depends on. Each is taken as
      given: the model assumes nothing about how they compute, beyond what the
      value type lets them see (a JSON number is one real, so `1` and `1.0`
      look alike to `dumps` and `render`).
      - `decodeUtf8`: `bytes.decode("utf-8")`, `None` when it raises.
      - `parse`: `json.loads`, `None` when it raises.
      - `dumps`: `json.dumps` with sorted keys and 4-space indentation.
      - `render`: `str(x)`, used to build a card file name from a code.
      - `schemaOk(instance, schema)`: `jsonschema.validate` raises no ValidationError.
      - `schemaDocOk(schema)`: `Draft4Validator.check_schema` raises no SchemaError.
      - `writeOk(path)`: opening the file for writing raises no IOError. */
  datatype Env = Env(
    fixFormatting: bool,
    decodeUtf8: seq<byte> -> Option<string>,
    parse: string -> Option<Json>,
    dumps: Json -> string,
    render: Json -> string,
    schemaOk: (Json, Json) -> bool,
    schemaDocOk: Json -> bool,
    writeOk: Path -> bool)

  /** Why a run stopped before printing its summary. */
  datatype Fatal =
    | Unreadable(path: Path)                  // open() raises OSError
    | MissingKey(value: Json, key: string)    // value[key] raises KeyError or TypeError
    | NoGetMethod(value: Json)                // value.get(...) on a non-dict raises AttributeError
    | Unhashable(code: Json)                  // a list or dict used as a dict key
    | CardsNotAList(path: Path)               // iterating a truthy non-list card file
    | TranslationsUnusable                    // check_dir_access calls sys.exit

  /** The outcome of a step that may end the whole run. */
  datatype Result<+T> = Ok(value: T) | Abort(reason: Fatal) {
    predicate IsFailure() { Abort? }

    function PropagateFailure<U>(): Result<U>
      requires Abort?
    {
      Abort(reason)
    }

    function Extract(): T
      requires Ok?
    {
      value
    }
  }

  /** Python's `j[key]`: the field, or the exception that aborts the run. */
  function Index(j: Json, key: string): (r: Result<Json>)
    ensures r.Ok? <==> Get(j, key).Some?
    ensures r.Ok? ==> r.value == Get(j, key).value
    ensures r.Abort? ==> r.reason == MissingKey(j, key)
  {
    match Get(j, key)
    case Some(v) => Ok(v)
    case None => Abort(MissingKey(j, key))
  }
}

=== FILE: expansions.dfy ===
/**
  The expansion index: `validate_expansions` and `load_expansions`. A pass goes
  on to its cards only when the whole index is acceptable.
 */
module Expansions {
  import opened JsonValues
  import opened Environment
  import opened ValidatorState
  import opened Loader

  /** The loop of `validate_expansions` over the entries. Each entry that fails
      the schema counts one error and makes the verdict false; the progress
      message calls `entry.get`, so an entry that is not an object aborts. */
  function ValidateExpansionEntries(env: Env, st: State, entries: seq<Json>, schema: Json): (r: Result<Checked>)
    decreases |entries|
    ensures r.Abort? <==> exists i :: 0 <= i < |entries| && !entries[i].JObject?
    ensures r.Ok? ==> (r.value.ok <==> forall i :: 0 <= i < |entries| ==> env.schemaOk(entries[i], schema))
    ensures r.Ok? ==> r.value.st.validationErrors == st.validationErrors + SchemaFailures(env, entries, schema)
    ensures r.Ok? ==> r.value.st.formattingErrors == st.formattingErrors
    ensures r.Ok? ==> r.value.st.registry == st.registry && r.value.st.files == st.files
    ensures r.Ok? && Consistent(st) ==> Consistent(r.value.st)
  {
    if |entries| == 0 then Ok(Checked(st, true))
    else
      var entry := entries[0];
      if !entry.JObject? then Abort(NoGetMethod(entry))
      else
        var counted := if env.schemaOk(entry, schema) then st else CountValidationError(st, InvalidExpansion(entry));
        var rest :- ValidateExpansionEntries(env, counted, entries[1..], schema);
        assert forall i :: 1 <= i < |entries| ==> entries[i] == entries[1..][i - 1];
        Ok(Checked(rest.st, rest.ok && env.schemaOk(entry, schema)))
  }

  /** Each failing entry is reported by name: its report is in the log. */
  lemma {:induction false} ExpansionReported(env: Env, st: State, entries: seq<Json>, schema: Json, i: nat)
    requires forall j :: 0 <= j < |entries| ==> entries[j].JObject?
    requires i < |entries| && !env.schemaOk(entries[i], schema)
    ensures ValidateExpansionEntries(env, st, entries, schema).Ok?
    ensures InvalidExpansion(entries[i]) in ValidateExpansionEntries(env, st, entries, schema).value.st.reports
    decreases |entries|
  {
    var entry := entries[0];
    var counted := if env.schemaOk(entry, schema) then st else CountValidationError(st, InvalidExpansion(entry));
    if i == 0 {
      ReportsOnlyGrow(env, counted, entries[1..], schema);
    } else {
      ExpansionReported(env, counted, entries[1..], schema, i - 1);
    }
  }

  /** The entry loop only appends to the log. */
  lemma {:induction false} ReportsOnlyGrow(env: Env, st: State, entries: seq<Json>, schema: Json)
    requires ValidateExpansionEntries(env, st, entries, schema).Ok?
    ensures st.reports <= ValidateExpansionEntries(env, st, entries, schema).value.st.reports
    decreases |entries|
  {
    if |entries| > 0 {
      var entry := entries[0];
      var counted := if env.schemaOk(entry, schema) then st else CountValidationError(st, InvalidExpansion(entry));
      ReportsOnlyGrow(env, counted, entries[1..], schema);
    }
  }

  /** `validate_expansions`. The expansion schema file of the pass is loaded
      first. Data that is not a list, or a falsy schema, gives false without any
      further error; an invalid schema document gives false with one error;
      otherwise the verdict is true exactly when every entry passes. */
  function ValidateExpansions(env: Env, st: State, data: Option<Json>, scope: Scope): (r: Result<Checked>)
    ensures r.Ok? ==> r.value.st.registry == st.registry
    ensures r.Ok? && Consistent(st) ==> Consistent(r.value.st)
    ensures r.Ok? ==> SchemaPath(ExpansionSchema, scope) in st.files
    ensures r.Ok? ==>
              var loaded := LoadJsonFile(env, st, SchemaPath(ExpansionSchema, scope)).value;
              && (!(data.Some? && data.value.JArray?) ==> r.value == Checked(loaded.st, false))
              && (!PyTruthy(loaded.value) ==> r.value == Checked(loaded.st, false))
              && (r.value.ok <==>
                    && data.Some? && data.value.JArray?
                    && PyTruthy(loaded.value)
                    && env.schemaDocOk(loaded.value.value)
                    && forall i :: 0 <= i < |data.value.elems| ==> env.schemaOk(data.value.elems[i], loaded.value.value))
              && (data.Some? && data.value.JArray? && PyTruthy(loaded.value) && env.schemaDocOk(loaded.value.value) ==>
                    && r.value.st.validationErrors == loaded.st.validationErrors + SchemaFailures(env, data.value.elems, loaded.value.value)
                    && r.value.st.formattingErrors == loaded.st.formattingErrors)
  {
    var path := SchemaPath(ExpansionSchema, scope);
    var loaded :- LoadJsonFile(env, st, path);
    if !(data.Some? && data.value.JArray?) then Ok(Checked(loaded.st, false))
    else if !PyTruthy(loaded.value) then Ok(Checked(loaded.st, false))
    else
      var checked := CheckJsonSchema(env, loaded.st, loaded.value.value, path);
      if !checked.ok then Ok(checked)
      else ValidateExpansionEntries(env, checked.st, data.value.elems, loaded.value.value)
  }

  /** `load_expansions`: the pass's expansion index, or `None` when
      `validate_expansions` rejects it. What it returns is always a list of
      objects. */
  function LoadExpansions(env: Env, st: State, scope: Scope): (r: Result<Loaded>)
    ensures r.Ok? ==> r.value.st.registry == st.registry
    ensures r.Ok? && Consistent(st) ==> Consistent(r.value.st)
    ensures r.Ok? ==> ExpansionIndex(scope) in st.files && SchemaPath(ExpansionSchema, scope) in st.files
    // the index is returned exactly when it is a list, the schema is truthy
    // and valid Draft 4, and every entry passes the schema
    ensures r.Ok? ==>
              var index := ParsedContent(env, st.files[ExpansionIndex(scope)]);
              var schema := ParsedContent(env, st.files[SchemaPath(ExpansionSchema, scope)]);
              && (r.value.value.Some? <==>
                    && index.Some? && index.value.JArray?
                    && PyTruthy(schema) && env.schemaDocOk(schema.value)
                    && forall i :: 0 <= i < |index.value.elems| ==> env.schemaOk(index.value.elems[i], schema.value))
              && (r.value.value.Some? ==> r.value.value == index)
    ensures r.Ok? && r.value.value.Some? ==>
              && r.value.value.value.JArray?
              && forall i :: 0 <= i < |r.value.value.value.elems| ==> r.value.value.value.elems[i].JObject?
  {
    var data :- LoadJsonFile(env, st, ExpansionIndex(scope));
    var checked :- ValidateExpansions(env, data.st, data.value, scope);
    if !checked.ok then Ok(Loaded(checked.st, None))
    else Ok(Loaded(checked.st, data.value))
  }

  /** One entry failing the schema makes `load_expansions` return `None` for
      that pass, after reporting the entry. */
  lemma OneBadEntryRejectsIndex(env: Env, st: State, scope: Scope, entries: seq<Json>, schema: Json, i: nat)
    requires ExpansionIndex(scope) in st.files && SchemaPath(ExpansionSchema, scope) in st.files
    requires ParsedContent(env, st.files[ExpansionIndex(scope)]) == Some(JArray(entries))
    requires ParsedContent(env, st.files[SchemaPath(ExpansionSchema, scope)]) == Some(schema)
    requires Truthy(schema) && env.schemaDocOk(schema)
    requires forall j :: 0 <= j < |entries| ==> entries[j].JObject?
    requires i < |entries| && !env.schemaOk(entries[i], schema)
    ensures LoadExpansions(env, st, scope).Ok?
    ensures LoadExpansions(env, st, scope).value.value.None?
    ensures InvalidExpansion(entries[i]) in LoadExpansions(env, st, scope).value.st.reports
  {
    var index := LoadJsonFile(env, st, ExpansionIndex(scope));
    assert index.Ok? && index.value.value == Some(JArray(entries));
    var schemaPath := SchemaPath(ExpansionSchema, scope);
    assert index.value.st.files[schemaPath] == st.files[schemaPath];
    var loaded := LoadJsonFile(env, index.value.st, schemaPath);
    assert loaded.Ok? && loaded.value.value == Some(schema);
    var verdict := ValidateExpansions(env, index.value.st, index.value.value, scope);
    assert verdict == ValidateExpansionEntries(env, loaded.value.st, entries, schema);
    ExpansionReported(env, loaded.value.st, entries, schema, i);
  }
}

=== FILE: json.dfy ===
/**
  Parsed JSON values as the validator sees them after `json.loads`, with the
  handful of Python behaviours the validator relies on: truthiness (`if not x`),
  subscripting an object by key (`x["code"]`), and whether a value can be used
  as a dictionary key.
 */
module JsonValues {

  datatype Option<+T> = None | Some(value: T)

  /** A parsed JSON document. Numbers are reals, so `1` and `1.0` are the same
      value, as they compare equal in Python. Objects are unordered. */
  datatype Json =
    | JNull
    | JBool(b: bool)
    | JNumber(n: real)
    | JString(s: string)
    | JArray(elems: seq<Json>)
    | JObject(fields: map<string, Json>)

  /** Python truthiness of a parsed value: `None`, `False`, zero, and empty
      strings, lists and dicts are false. */
  predicate Truthy(j: Json)
  {
    match j
    case JNull => false
    case JBool(b) => b
    case JNumber(n) => n != 0.0
    case JString(s) => s != ""
    case JArray(es) => |es| > 0
    case JObject(fs) => |fs| > 0
  }

  /** Truthiness of a value that may be Python's `None` (a failed load). */
  predicate PyTruthy(o: Option<Json>)
  {
    o.Some? && Truthy(o.value)
  }

  /** Lists and dicts are unhashable: using one as a dict key raises TypeError. */
  predicate Hashable(j: Json)
  {
    !j.JArray? && !j.JObject?
  }

  /** `j[key]` when it succeeds. It fails (KeyError or TypeError) when `j` is not
      an object or lacks the key. */
  function Get(j: Json, key: string): (r: Option<Json>)
    ensures r.Some? <==> j.JObject? && key in j.fields
    ensures r.Some? ==> r.value == j.fields[key]
  {
    if j.JObject? && key in j.fields then Some(j.fields[key]) else None
  }

}

=== FILE: loader.dfy ===
/**
  Reading a JSON file (`load_json_file`), the canonical formatter
  (`format_json`) and the structural check of a schema document
  (`check_json_schema`), with their effect on the two error counters.
 */
module Loader {
  import opened JsonValues
  import opened Environment
  import opened ValidatorState

  /** `format_json`: the library serialisation followed by one newline. */
  function FormatJson(env: Env, v: Json): (text: string)
    ensures |text| > 0 && text[|text| - 1] == '\n'
    ensures text[..|text| - 1] == env.dumps(v)
  {
    env.dumps(v) + "\n"
  }

  /** The text of a file: decoded bytes as found on disk, or the text the
      formatter wrote earlier in the run. */
  function ReadText(env: Env, c: FileContent): Option<string>
  {
    match c
    case Original(raw) => env.decodeUtf8(raw)
    case Rewritten(text) => Some(text)
  }

  /** The value `json.loads` gives for a file's text, `None` when decoding or
      parsing raises ValueError. */
  function ParsedContent(env: Env, c: FileContent): Option<Json>
  {
    match ReadText(env, c)
    case None => None
    case Some(text) => env.parse(text)
  }

  /** `after` differs from `before` at most in the content of the file at `path`. */
  predicate OnlyRewrites(before: map<Path, FileContent>, after: map<Path, FileContent>, path: Path)
  {
    && after.Keys == before.Keys
    && forall p :: p in before && p != path ==> after[p] == before[p]
  }

  /** What a load leaves behind: the new state and the parsed value, or `None`
      as Python's `None` for a file that is not JSON. */
  datatype Loaded = Loaded(st: State, value: Option<Json>)

  /** `load_json_file`. A file that cannot be opened aborts the run. A file that
      does not decode or parse counts one validation error and yields `None`. A
      parsed file whose canonical form differs from its text counts one
      formatting error and, with `--fix_formatting`, is rewritten in canonical
      form; its value is returned either way. */
  function LoadJsonFile(env: Env, st: State, path: Path): (r: Result<Loaded>)
    ensures r.Abort? <==> path !in st.files
    ensures r.Abort? ==> r.reason == Unreadable(path)
    ensures r.Ok? ==> r.value.st.registry == st.registry
    ensures r.Ok? && Consistent(st) ==> Consistent(r.value.st)
    ensures r.Ok? ==> OnlyRewrites(st.files, r.value.st.files, path)
    ensures r.Ok? ==> r.value.value == ParsedContent(env, st.files[path])
    ensures r.Ok? ==> (r.value.value.None? <==> ParsedContent(env, st.files[path]).None?)
    ensures r.Ok? && r.value.value.None? ==>
              r.value.st == st.(validationErrors := st.validationErrors + 1, reports := st.reports + [NotJson(path)])
    ensures r.Ok? && r.value.value.Some? ==>
              var text := ReadText(env, st.files[path]).value;
              var canonical := FormatJson(env, r.value.value.value);
              && env.parse(text) == r.value.value
              && r.value.st.validationErrors == st.validationErrors
              && (canonical == text ==> r.value.st == st)
              && (canonical != text ==>
                    && r.value.st.formattingErrors == st.formattingErrors + 1
                    && r.value.st.reports == st.reports + [Misformatted(path)]
                    && r.value.st.files ==
                         if env.fixFormatting && env.writeOk(path) then st.files[path := Rewritten(canonical)]
                         else st.files)
  {
    if path !in st.files then Abort(Unreadable(path))
    else
      var text := ReadText(env, st.files[path]);
      if text.None? || env.parse(text.value).None? then
        Ok(Loaded(CountValidationError(st, NotJson(path)), None))
      else
        var v := env.parse(text.value).value;
        var canonical := FormatJson(env, v);
        if canonical == text.value then Ok(Loaded(st, Some(v)))
        else
          var counted := CountFormattingError(st, path);
          var fixed :=
            if env.fixFormatting && |canonical| > 0 && env.writeOk(path)
            then counted.(files := counted.files[path := Rewritten(canonical)])
            else counted;
          Ok(Loaded(fixed, Some(v)))
  }

  /** Once the formatter has rewritten a file, loading it again counts nothing
      and changes nothing, provided `json.loads` reads the canonical text back
      as the same value. */
  lemma FixedFileLoadsClean(env: Env, st: State, path: Path)
    requires path in st.files && ParsedContent(env, st.files[path]).Some?
    requires var v := ParsedContent(env, st.files[path]).value;
             env.parse(FormatJson(env, v)) == Some(v)
    requires env.fixFormatting && env.writeOk(path)
    ensures var first := LoadJsonFile(env, st, path).value;
            var second := LoadJsonFile(env, first.st, path).value;
            && second.st == first.st
            && second.value == first.value
  {
  }

  /** A file whose text is already the canonical form of its value is not
      counted as misformatted. */
  lemma CanonicalFileNotCounted(env: Env, st: State, path: Path, v: Json)
    requires path in st.files && ReadText(env, st.files[path]) == Some(FormatJson(env, v))
    requires env.parse(FormatJson(env, v)) == Some(v)
    ensures LoadJsonFile(env, st, path) == Ok(Loaded(st, Some(v)))
  {
  }

  /** Two outcomes of `check_json_schema`: the new state and the verdict. */
  datatype Checked = Checked(st: State, ok: bool)

  /** `check_json_schema`: a schema document that is not valid Draft 4 counts
      one validation error and stops the dependent category. */
  function CheckJsonSchema(env: Env, st: State, schema: Json, path: Path): (c: Checked)
    ensures c.ok <==> env.schemaDocOk(schema)
    ensures c.ok ==> c.st == st
    ensures !c.ok ==> c.st.validationErrors == st.validationErrors + 1
    ensures !c.ok ==> c.st.reports == st.reports + [InvalidSchemaDocument(path)]
    ensures c.st.formattingErrors == st.formattingErrors
    ensures c.st.registry == st.registry && c.st.files == st.files
    ensures Consistent(st) ==> Consistent(c.st)
  {
    if env.schemaDocOk(schema) then Checked(st, true)
    else Checked(CountValidationError(st, InvalidSchemaDocument(path)), false)
  }

  /** Number of instances the schema rejects. */
  function SchemaFailures(env: Env, instances: seq<Json>, schema: Json): (n: nat)
    ensures n <= |instances|
    ensures n == 0 <==> forall i :: 0 <= i < |instances| ==> env.schemaOk(instances[i], schema)
  {
    if |instances| == 0 then 0
    else (if env.schemaOk(instances[0], schema) then 0 else 1) + SchemaFailures(env, instances[1..], schema)
  }
}

=== FILE: pipeline.dfy ===
/**
  The whole run (`main` and `validate_locales`): the default pass, then one
  pass per translation, then the exit status.
 */
module Pipeline {
  import opened JsonValues
  import opened Environment
  import opened ValidatorState
  import opened Loader
  import opened Cards
  import opened Expansions

  /** The translations directory as `validate_locales` finds it: absent,
      present but not a readable directory (`check_dir_access` exits), or
      listing the locale sub-directories. */
  datatype Translations = Absent | Unusable | Present(locales: seq<LocaleName>)

  /** `if expansions: validate_cards(...)`: the cards of a pass are validated
      only when its expansion index came back as a non-empty list. */
  function ValidateCardsIfAny(env: Env, loaded: Loaded, scope: Scope): (r: Result<State>)
    ensures !PyTruthy(loaded.value) ==> r == Ok(loaded.st)
    ensures r.Ok? && Consistent(loaded.st) ==> Consistent(r.value)
    ensures r.Ok? && scope.Default? ==> Extends(loaded.st.registry, r.value.registry)
    ensures r.Ok? && Keyed(loaded.st.registry) ==> Keyed(r.value.registry)
  {
    if PyTruthy(loaded.value) && loaded.value.value.JArray? then
      ValidateCards(env, loaded.st, loaded.value.value.elems, scope)
    else Ok(loaded.st)
  }

  /** The loop of `validate_locales` over the locale directories. */
  function ValidateLocaleList(env: Env, st: State, locales: seq<LocaleName>): (r: Result<State>)
    decreases |locales|
    ensures r.Ok? && Consistent(st) ==> Consistent(r.value)
    ensures r.Ok? && Keyed(st.registry) ==> Keyed(r.value.registry)
    ensures r.Ok? ==> r.value.validationErrors >= st.validationErrors
  {
    if |locales| == 0 then Ok(st)
    else
      var loaded :- LoadExpansions(env, st, Locale(locales[0]));
      var next :- ValidateCardsIfAny(env, loaded, Locale(locales[0]));
      ValidateLocaleList(env, next, locales[1..])
  }

  /** `validate_locales`. */
  function ValidateLocales(env: Env, st: State, translations: Translations): (r: Result<State>)
    ensures translations.Absent? ==> r == Ok(st)
    ensures translations.Unusable? ==> r == Abort(TranslationsUnusable)
    ensures r.Ok? && Consistent(st) ==> Consistent(r.value)
    ensures r.Ok? && Keyed(st.registry) ==> Keyed(r.value.registry)
  {
    match translations
    case Absent => Ok(st)
    case Unusable => Abort(TranslationsUnusable)
    case Present(locales) => ValidateLocaleList(env, st, locales)
  }

  /** `main` up to the summary line: the default expansion index, its cards,
      then the translations, all sharing one code table and two counters. */
  function Run(env: Env, files: map<Path, FileContent>, translations: Translations): (r: Result<State>)
    ensures r.Ok? ==> Consistent(r.value)
    ensures r.Ok? ==> Keyed(r.value.registry)
    // a card is registered only when the default expansion index was accepted
    ensures r.Ok? ==> LoadExpansions(env, Initial(files), Default).Ok?
    ensures r.Ok? && |r.value.registry| > 0 ==> LoadExpansions(env, Initial(files), Default).value.value.Some?
  {
    var loaded :- LoadExpansions(env, Initial(files), Default);
    if PyTruthy(loaded.value) then
      var afterDefault :- ValidateCards(env, loaded.st, loaded.value.value.elems, Default);
      ValidateLocales(env, afterDefault, translations)
    else Ok(loaded.st)
  }

  /** `sys.exit(0)` or `sys.exit(1)` after the summary; an uncaught exception or
      an earlier `sys.exit` with a message also ends with status 1. */
  function ExitStatus(r: Result<State>): (status: int)
    ensures status == 0 || status == 1
    ensures r.Abort? ==> status == 1
    ensures r.Ok? && Consistent(r.value) ==> (status == 0 <==> |r.value.reports| == 0)
  {
    if r.Abort? then 1
    else
      CountersZeroIffNoReports(r.value);
      if r.value.formattingErrors == 0 && r.value.validationErrors == 0 then 0 else 1
  }

  /** The run succeeds exactly when it completes without a single reported
      problem of either class. */
  lemma ExitZeroIffNothingReported(env: Env, files: map<Path, FileContent>, translations: Translations)
    ensures var r := Run(env, files, translations);
            ExitStatus(r) == 0 <==> r.Ok? && |r.value.reports| == 0
  {
    var r := Run(env, files, translations);
    if r.Ok? {
      CountersZeroIffNoReports(r.value);
    }
  }

  /** A rejected or empty default expansion index stops the run before any card
      or translation is looked at: the code table stays empty. */
  lemma NoCardsWithoutExpansions(env: Env, files: map<Path, FileContent>, translations: Translations)
    requires LoadExpansions(env, Initial(files), Default).Ok?
    requires !PyTruthy(LoadExpansions(env, Initial(files), Default).value.value)
    ensures Run(env, files, translations) == Ok(LoadExpansions(env, Initial(files), Default).value.st)
    ensures Run(env, files, translations).value.registry == map[]
  {
  }

  /** One expansion entry that fails the schema is enough: `load_expansions`
      returns `None`, so neither the default cards nor any translation is
      validated, and the run reports at least that entry. */
  lemma OneBadExpansionStopsCards(env: Env, files: map<Path, FileContent>, translations: Translations,
                                  entries: seq<Json>, schema: Json, i: nat)
    requires ExpansionIndex(Default) in files && SchemaPath(ExpansionSchema, Default) in files
    requires ParsedContent(env, files[ExpansionIndex(Default)]) == Some(JArray(entries))
    requires ParsedContent(env, files[SchemaPath(ExpansionSchema, Default)]) == Some(schema)
    requires Truthy(schema) && env.schemaDocOk(schema)
    requires forall j :: 0 <= j < |entries| ==> entries[j].JObject?
    requires i < |entries| && !env.schemaOk(entries[i], schema)
    ensures Run(env, files, translations).Ok?
    ensures Run(env, files, translations).value.registry == map[]
    ensures InvalidExpansion(entries[i]) in Run(env, files, translations).value.reports
  {
    OneBadEntryRejectsIndex(env, Initial(files), Default, entries, schema, i);
  }
}

=== FILE: scenarios.dfy ===
/**
  Small concrete runs of the card checks, stated for any schema library that
  accepts the cards involved.
 */
module Scenarios {
  import opened JsonValues
  import opened Environment
  import opened ValidatorState
  import opened Loader
  import opened Cards

  function Card(code: string, name: string, expansion: string): Json
  {
    JObject(map["code" := JString(code), "name" := JString(name), "expansion_code" := JString(expansion)])
  }

  /** Two cards of `core.json` share the code "01001": only the second is
      reported, as a duplicate naming the first, which stays registered. */
  lemma DuplicateInOneFile(env: Env, st: State, schema: Json)
    requires JString("01001") !in st.registry
    requires env.schemaOk(Card("01001", "Card A", "core"), schema)
    requires env.schemaOk(Card("01001", "Card B", "core"), schema)
    ensures var r := ValidateCardList(env, st, [Card("01001", "Card A", "core"), Card("01001", "Card B", "core")],
                                      schema, JString("core"), Default);
            && r.Ok?
            && r.value.validationErrors == st.validationErrors + 1
            && r.value.reports == st.reports + [InvalidCard(JString("core"), Card("01001", "Card B", "core"),
                                                  DuplicateCode(JString("01001"), JString("Card B"), JString("Card A")))]
            && r.value.registry == st.registry[JString("01001") := Card("01001", "Card A", "core")]
  {
    var a := Card("01001", "Card A", "core");
    var b := Card("01001", "Card B", "core");
    var afterA := st.(registry := st.registry[JString("01001") := a]);
    assert ValidateCard(env, st, a, schema, JString("core"), Default) == Ok(afterA);
    assert [a, b][1..] == [b];
  }

  /** A card the schema rejects does not reserve its code: a later valid card
      with the same code is accepted without a duplicate error. */
  lemma RejectedCardReservesNothing(env: Env, st: State, schema: Json)
    requires JString("02001") !in st.registry
    requires !env.schemaOk(Card("02001", "Broken", "core"), schema)
    requires env.schemaOk(Card("02001", "Fixed", "core"), schema)
    ensures var r := ValidateCardList(env, st, [Card("02001", "Broken", "core"), Card("02001", "Fixed", "core")],
                                      schema, JString("core"), Default);
            && r.Ok?
            && r.value.reports == st.reports + [InvalidCard(JString("core"), Card("02001", "Broken", "core"), SchemaViolation)]
            && r.value.registry == st.registry[JString("02001") := Card("02001", "Fixed", "core")]
  {
    var a := Card("02001", "Broken", "core");
    var b := Card("02001", "Fixed", "core");
    assert [a, b][1..] == [b];
  }

  /** A card in the wrong file that also repeats a registered code is reported
      for the expansion mismatch, not as a duplicate. */
  lemma MismatchReportedBeforeDuplicate(env: Env, st: State, schema: Json)
    requires st.registry == map[JString("03001") := Card("03001", "Original", "core")]
    requires env.schemaOk(Card("03001", "Stray", "promo"), schema)
    ensures ValidateCard(env, st, Card("03001", "Stray", "promo"), schema, JString("core"), Default)
            == Ok(CountValidationError(st, InvalidCard(JString("core"), Card("03001", "Stray", "promo"),
                    ExpansionMismatch(JString("promo"), JString("03001"), JString("core")))))
  {
  }

  /** A translated card runs no custom check: it replaces the registered card
      with the same code even though its file belongs to another expansion. */
  lemma LocaleCardOverwrites(env: Env, st: State, schema: Json, locale: LocaleName)
    requires st.registry == map[JString("04001") := Card("04001", "Original", "core")]
    requires env.schemaOk(Card("04001", "Traduit", "promo"), schema)
    ensures ValidateCard(env, st, Card("04001", "Traduit", "promo"), schema, JString("core"), Locale(locale))
            == Ok(st.(registry := map[JString("04001") := Card("04001", "Traduit", "promo")]))
  {
    var b := Card("04001", "Traduit", "promo");
    assert st.registry[JString("04001") := b] == map[JString("04001") := b];
  }

  /** An entry of the expansion index. */
  function Expansion(code: string): Json
  {
    JObject(map["code" := JString(code), "name" := JString(code)])
  }

  /** A card file of the default pass that is already in canonical form and
      holds the one card `card`. */
  predicate CanonicalCardFile(env: Env, st: State, expansionCode: string, card: Json)
  {
    var path := CardFile(Default, env.render(JString(expansionCode)));
    && path in st.files
    && ReadText(env, st.files[path]) == Some(FormatJson(env, JArray([card])))
    && env.parse(FormatJson(env, JArray([card]))) == Some(JArray([card]))
  }

  /** One step of the loop over expansions: the card file of the first
      expansion is loaded without a report and its one card is validated. */
  lemma {:induction false} CanonicalCardFileStep(env: Env, st: State, expansions: seq<Json>, schema: Json,
                                                 expansionCode: string, card: Json)
    requires |expansions| > 0 && expansions[0] == Expansion(expansionCode)
    requires CanonicalCardFile(env, st, expansionCode, card)
    ensures var next := ValidateCard(env, st, card, schema, JString(expansionCode), Default);
            ValidateExpansionCards(env, st, expansions, schema, Default)
            == if next.Ok? then ValidateExpansionCards(env, next.value, expansions[1..], schema, Default) else next
  {
    var code := JString(expansionCode);
    var path := CardFile(Default, env.render(code));
    assert Index(expansions[0], "name") == Ok(code) && Index(expansions[0], "code") == Ok(code);
    CanonicalFileNotCounted(env, st, path, JArray([card]));
    var loaded := Loaded(st, Some(JArray([card])));
    assert LoadJsonFile(env, st, path) == Ok(loaded);
    var next := ValidateCard(env, st, card, schema, code, Default);
    assert [card][1..] == [];
    if next.Ok? {
      assert ValidateCardList(env, next.value, [], schema, code, Default) == Ok(next.value);
    }
    assert ValidateCardList(env, st, [card], schema, code, Default) == next;
    assert ValidateCardFile(env, loaded, schema, code, Default, path) == next;
  }

  /** Two cards sharing the code "01001" in the card files of two different
      expansions: the code table carries over from one file to the next, so
      the second card is reported as a duplicate naming the first, which
      stays registered. */
  lemma DuplicateAcrossFiles(env: Env, st: State, schema: Json)
    requires JString("01001") !in st.registry
    requires env.render(JString("core")) != env.render(JString("promo"))
    requires CanonicalCardFile(env, st, "core", Card("01001", "Card A", "core"))
    requires CanonicalCardFile(env, st, "promo", Card("01001", "Card B", "promo"))
    requires env.schemaOk(Card("01001", "Card A", "core"), schema)
    requires env.schemaOk(Card("01001", "Card B", "promo"), schema)
    ensures var r := ValidateExpansionCards(env, st, [Expansion("core"), Expansion("promo")], schema, Default);
            && r.Ok?
            && r.value.reports == st.reports + [InvalidCard(JString("promo"), Card("01001", "Card B", "promo"),
                                                  DuplicateCode(JString("01001"), JString("Card B"), JString("Card A")))]
            && r.value.registry == st.registry[JString("01001") := Card("01001", "Card A", "core")]
  {
    var a := Card("01001", "Card A", "core");
    var b := Card("01001", "Card B", "promo");
    var expansions := [Expansion("core"), Expansion("promo")];
    var afterA := st.(registry := st.registry[JString("01001") := a]);
    assert ValidateCard(env, st, a, schema, JString("core"), Default) == Ok(afterA);
    CanonicalCardFileStep(env, st, expansions, schema, "core", a);
    var afterB := CountValidationError(afterA, InvalidCard(JString("promo"), b,
                    DuplicateCode(JString("01001"), JString("Card B"), JString("Card A"))));
    assert ValidateCard(env, afterA, b, schema, JString("promo"), Default) == Ok(afterB);
    assert expansions[1..] == [Expansion("promo")];
    CanonicalCardFileStep(env, afterA, expansions[1..], schema, "promo", b);
    assert expansions[1..][1..] == [];
  }
}

=== FILE: state.dfy ===
/**
  The validator's process-wide state: the table of accepted card codes, the two
  error counters, and the files on disk. Next to the counters the model keeps
  the list of reported problems, so that it can state what each count means.
 */
module ValidatorState {
  import opened JsonValues
  import opened Environment

  /** Why a card raised `jsonschema.ValidationError`. */
  datatype Rejection =
    | SchemaViolation
    | ExpansionMismatch(cardExpansion: Json, cardCode: Json, fileExpansion: Json)
    | DuplicateCode(code: Json, name: Json, ownerName: Json)

  /** One counted problem, as printed at the point of detection. */
  datatype Report =
    | NotJson(path: Path)
    | Misformatted(path: Path)
    | InvalidSchemaDocument(path: Path)
    | InvalidExpansion(entry: Json)
    | InvalidCard(expansionCode: Json, card: Json, why: Rejection)

  datatype State = State(
    registry: map<Json, Json>,
    formattingErrors: nat,
    validationErrors: nat,
    reports: seq<Report>,
    files: map<Path, FileContent>)

  /** The state at the start of `main`: counters at zero, empty code table. */
  function Initial(files: map<Path, FileContent>): State
  {
    State(map[], 0, 0, [], files)
  }

  /** Number of reports of the formatting class (`formatting = true`) or of the
      validation class (`formatting = false`). */
  function Tally(rs: seq<Report>, formatting: bool): nat
  {
    if |rs| == 0 then 0
    else Tally(rs[..|rs| - 1], formatting) + (if rs[|rs| - 1].Misformatted? == formatting then 1 else 0)
  }

  /** Each counter equals the number of problems of its class reported so far. */
  predicate Consistent(st: State)
  {
    && st.formattingErrors == Tally(st.reports, true)
    && st.validationErrors == Tally(st.reports, false)
  }

  /** Every report falls in exactly one of the two classes. */
  lemma {:induction false} TallySplit(rs: seq<Report>)
    ensures Tally(rs, true) + Tally(rs, false) == |rs|
  {
    if |rs| > 0 {
      TallySplit(rs[..|rs| - 1]);
    }
  }

  lemma TallyAppend(rs: seq<Report>, p: Report, formatting: bool)
    ensures Tally(rs + [p], formatting) == Tally(rs, formatting) + (if p.Misformatted? == formatting then 1 else 0)
  {
    assert (rs + [p])[..|rs|] == rs;
  }

  /** `formatting_errors += 1` for the file at `path`. */
  function CountFormattingError(st: State, path: Path): (r: State)
    ensures r.formattingErrors == st.formattingErrors + 1
    ensures r.validationErrors == st.validationErrors
    ensures r.reports == st.reports + [Misformatted(path)]
    ensures r.registry == st.registry && r.files == st.files
    ensures Consistent(st) ==> Consistent(r)
  {
    TallyAppend(st.reports, Misformatted(path), true);
    TallyAppend(st.reports, Misformatted(path), false);
    st.(formattingErrors := st.formattingErrors + 1, reports := st.reports + [Misformatted(path)])
  }

  /** `validation_errors += 1` for a problem of the validation class. */
  function CountValidationError(st: State, p: Report): (r: State)
    requires !p.Misformatted?
    ensures r.validationErrors == st.validationErrors + 1
    ensures r.formattingErrors == st.formattingErrors
    ensures r.reports == st.reports + [p]
    ensures r.registry == st.registry && r.files == st.files
    ensures Consistent(st) ==> Consistent(r)
  {
    TallyAppend(st.reports, p, true);
    TallyAppend(st.reports, p, false);
    st.(validationErrors := st.validationErrors + 1, reports := st.reports + [p])
  }

  /** Both counters are zero exactly when nothing has been reported. */
  lemma CountersZeroIffNoReports(st: State)
    ensures Consistent(st) ==> (st.formattingErrors == 0 && st.validationErrors == 0 <==> |st.reports| == 0)
  {
    TallySplit(st.reports);
  }

  /** `m` keeps every entry of `m0` unchanged. */
  predicate Extends(m0: map<Json, Json>, m: map<Json, Json>)
  {
    forall k :: k in m0 ==> k in m && m[k] == m0[k]
  }
}
